=== FILE: README.md ===
# AroundFloor mirror engine in Dafny

AroundFloor is a Minecraft server plugin that copies blocks from a *source* band of heights
(default -50..319) into a *display* band (default 50..419, 100 blocks higher) around each
player, so that players see the terrain below them projected above. This project models its
engine, `BlockManager`, and the configuration arithmetic it depends on, `Config`.

The engine keeps three tables:

- `visible`: for each player, the set of source coordinates the player observes.
- `displayed`: for each display coordinate, the set of players referencing it.
- `lastPos`: for each player, the position of the last recompute.

When a player moves at least one block, the engine rescans a disc of the configured radius
over the source band. It references each newly observed coordinate and dereferences each one
no longer observed. A display cell is written only at two moments. It receives a copy of its
source block when its first referencer arrives. It is set to air when its last referencer
leaves.

The model is functional. `State` holds the three tables and the world: a map from coordinate
to block, where a missing entry is air, plus the set of loaded chunks. Reference and
dereference are pure functions. The add and remove loops are folds (`CopyAll`, `RemoveAll`)
over a sequence that lists the set in any order. Update, quit and statistics are methods,
because the order in which they visit a set is chosen at run time.

The central invariant is `Mirror.Consistent`. No entry of `displayed` is empty, and a player
is listed at a display cell exactly when that player observes the cell's source and the cell
lies in the display band. Update, quit and join (for a player not yet observing anything)
preserve it.

Modules: `Int32` (Java `int` wrap-around), `Wrappers` (`Option`), `Worlds` (blocks, chunks,
positions), `Configuration` (Config.java), `Visibility` (the scan and the movement gate),
`Mirror` (reference counting and the invariant), `BlockManager` (the public operations),
`Scenario` (concrete runs under the default configuration).

## Model

| member | source | states |
|---|---|---|
| `Configuration.Validate` | src/main/java/com/kamesuta/aroundfloor/Config.java:53-75 | Afterwards radius >= 1, sourceYMin < sourceYMax, displayYMin < displayYMax and interval >= 1. A violated group is reset as a whole to its defaults (10; -50..319; 50..419; 20). Other groups, yOffset and debug are kept. The result equals the input exactly when the input was already well-formed. |
| `Configuration.ValidateIdempotent` | src/main/java/com/kamesuta/aroundfloor/Config.java:53-75 | Validating twice gives the same configuration as validating once. |
| `Configuration.LoadConfig` | src/main/java/com/kamesuta/aroundfloor/Config.java:25-41 | Each absent key takes its default, and the filled-in configuration is then validated, so the result is well-formed. Key by key: the radius (stored or default) is kept if >= 1, else 10. Each band (stored or default ends) is kept if its top exceeds its bottom, else reset to its default pair. The interval is kept if >= 1, else 20. Offset and debug are kept. With no keys at all the result is exactly the defaults. |
| `Configuration.LoadStoreRoundTrip` | src/main/java/com/kamesuta/aroundfloor/Config.java:25-41 | Writing out every key of a configuration and loading it back gives the same configuration exactly when it is well-formed. A loaded configuration survives another write and load. |
| `Configuration.CalculateDisplayY` | src/main/java/com/kamesuta/aroundfloor/Config.java:88-90 | The display height is the source height plus yOffset whenever that sum fits in a Java `int`; otherwise it wraps as Java `int` addition does. |
| `Configuration.SourceYOfDisplayY` | src/main/java/com/kamesuta/aroundfloor/Config.java:88-90 | Subtracting the offset again recovers the source height, overflow included. |
| `Configuration.DisplayYOfSourceY` | src/main/java/com/kamesuta/aroundfloor/Config.java:88-90 | Every display height is the image of exactly the source height obtained by subtracting the offset. |
| `Configuration.DisplayYInjective` | src/main/java/com/kamesuta/aroundfloor/Config.java:88-90 | Distinct source heights map to distinct display heights. |
| `Configuration.BandsInclusive` | src/main/java/com/kamesuta/aroundfloor/Config.java:93-100 | Both band checks accept both endpoints and reject the heights just outside them. |
| `Configuration.DefaultBandsCorrespond` | src/main/java/com/kamesuta/aroundfloor/Config.java:88-100 | Under the defaults, a height is in the source band exactly when its display height is in the display band, wrapped heights included. |
| `Worlds.ChunkOf` | src/main/java/com/kamesuta/aroundfloor/BlockManager.java:109 | `x >> 4` and `z >> 4` name the 16-wide chunk that contains the coordinate, negative coordinates included. |
| `Visibility.MovedLessThanOneBlockIffSame` | src/main/java/com/kamesuta/aroundfloor/BlockManager.java:41-44 | On block positions, a squared distance below 1 means the player is on the same block. |
| `Visibility.CalculateVisibleBlocks` | src/main/java/com/kamesuta/aroundfloor/BlockManager.java:83-117 | The scan returns exactly the coordinates of the player's world that pass all of these tests: within the radius on each axis; dx*dx + dz*dz <= r*r, boundary included; inside the source band; not air; in a loaded chunk. A position without a world gives the empty set. |
| `Visibility.DiscWithinBox` | src/main/java/com/kamesuta/aroundfloor/BlockManager.java:94-98 | For a non-negative radius the disc test implies the square the loops walk, so the square loses no coordinate of the disc. |
| `Visibility.IncrementAsWritten` | src/main/java/com/kamesuta/aroundfloor/BlockManager.java:94-101 | The counters `x++`, `z++` and `y++` step by one, except at the largest `int`, where they wrap to the smallest. |
| `Visibility.ScanStartAsWritten` | src/main/java/com/kamesuta/aroundfloor/BlockManager.java:94 | The first column `centerX - range` equals the mathematical difference whenever that difference fits in a Java `int`. |
| `Visibility.ScanEndAsWritten` | src/main/java/com/kamesuta/aroundfloor/BlockManager.java:94 | The last column `centerX + range` equals the sum when it fits, and the sum minus 2^32 when it passes the largest `int`. |
| `Visibility.WideRadiusScanAsWritten` | src/main/java/com/kamesuta/aroundfloor/BlockManager.java:94-95 | Validation keeps radius 2147483647. With that radius and a player at x = 1000, the wrapped bound lies below the start, so the loop as written scans nothing, though the block under the player is visible. At x = 0 the bound is the largest `int`, so the guard never fails. |
| `Visibility.ScanAtIntMaxNeverExits` | src/main/java/com/kamesuta/aroundfloor/BlockManager.java:101 | Validation accepts a source band topped at 2147483647. For that band every counter value passes the loop guard, and so does its successor, so the loop never exits. |
| `Mirror.SourceOfDisplayOf` | src/main/java/com/kamesuta/aroundfloor/BlockManager.java:126-132 | The display location keeps world, x and z and changes only the height, so the source coordinate can be recovered from it. |
| `Mirror.DisplayOfSourceOf` | src/main/java/com/kamesuta/aroundfloor/BlockManager.java:126-132 | Every display coordinate is the display location of exactly one source coordinate. |
| `Mirror.CopyBlockToDisplay` | src/main/java/com/kamesuta/aroundfloor/BlockManager.java:122-153 | Out of band, nothing changes. In band, the player joins the cell's referencers. If the player is then the only referencer, the cell receives the source block. Otherwise the world is untouched. No other cell or entry changes, and no entry is left empty. |
| `Mirror.SecondReferencerDoesNotWrite` | src/main/java/com/kamesuta/aroundfloor/BlockManager.java:134-139 | If another player already references the cell, referencing it writes nothing and that player stays listed. |
| `Mirror.CopyKeepsOtherReferencers` | src/main/java/com/kamesuta/aroundfloor/BlockManager.java:134-152 | A reference by one player never removes another player from any cell and never rewrites a cell another player references. |
| `Mirror.RemoveBlockFromDisplay` | src/main/java/com/kamesuta/aroundfloor/BlockManager.java:158-187 | Out of band, or with no entry, nothing changes. Otherwise the player leaves the cell's referencers. The entry is deleted exactly when no referencer remains, and then the cell is written air. Otherwise the world is untouched. No other cell or entry changes. |
| `Mirror.CopyAll` | src/main/java/com/kamesuta/aroundfloor/BlockManager.java:62-65 | The add loop, in any order: it changes entries and blocks only at display cells of the listed coordinates. It keeps every existing entry, never leaves an entry empty, and never disturbs another player's cells. |
| `Mirror.RemoveAll` | src/main/java/com/kamesuta/aroundfloor/BlockManager.java:67-70 | The remove loop, in any order: it changes only display cells of the listed coordinates and writes nothing but air. Every entry it deletes is left holding air. It never disturbs another player's cells. |
| `Mirror.ConsistentIffExactReferencers` | src/main/java/com/kamesuta/aroundfloor/BlockManager.java:134-136 | The invariant holds exactly when no entry is empty and each cell's referencers are the players with an observed, in-band source mapping to that cell. |
| `Mirror.CopyPreservesConsistent` | src/main/java/com/kamesuta/aroundfloor/BlockManager.java:134-136 | Referencing a coordinate keeps the invariant once the coordinate is added to the player's working set. |
| `Mirror.RemovePreservesConsistent` | src/main/java/com/kamesuta/aroundfloor/BlockManager.java:170-178 | Dereferencing a coordinate keeps the invariant once the coordinate is removed from the player's working set. |
| `Mirror.CopyAllPreservesConsistent` | src/main/java/com/kamesuta/aroundfloor/BlockManager.java:62-65 | The add loop, in any order, keeps the invariant with the player's set grown by the listed coordinates. |
| `Mirror.RemoveAllPreservesConsistent` | src/main/java/com/kamesuta/aroundfloor/BlockManager.java:67-70 | The remove loop, in any order, keeps the invariant with the player's set shrunk by the listed coordinates. |
| `Mirror.EmptyEntryIrrelevant` | src/main/java/com/kamesuta/aroundfloor/BlockManager.java:216-218 | A player with an empty observation set and a player with no entry are equivalent for the invariant. |
| `Mirror.ObservedEntryConsistent` | src/main/java/com/kamesuta/aroundfloor/BlockManager.java:49 | Installing an empty set for a player with none (`computeIfAbsent`) keeps the invariant. |
| `BlockManager.ComputeDelta` | src/main/java/com/kamesuta/aroundfloor/BlockManager.java:54-60 | toAdd and toRemove are disjoint. toAdd is new and not old; toRemove is old and not new. Adding toAdd to the old set and then removing toRemove gives exactly the new set. |
| `BlockManager.Enumerate` | src/main/java/com/kamesuta/aroundfloor/BlockManager.java:63 | Iteration visits every member of the set exactly once, in some order. |
| `BlockManager.RecomputeTables` | src/main/java/com/kamesuta/aroundfloor/BlockManager.java:46-73 | After the gate, the last position becomes the current one and the player's set becomes the new set. Every other player's set is unchanged, and the players with an entry are exactly the previous ones plus this player. |
| `BlockManager.RecomputePreservesConsistent` | src/main/java/com/kamesuta/aroundfloor/BlockManager.java:46-73 | When the loops visit exactly the two differences, the update keeps the invariant. |
| `BlockManager.RecomputeSparesOtherReferencers` | src/main/java/com/kamesuta/aroundfloor/BlockManager.java:62-70 | The update never drops another player from a cell and never writes a cell another player references. |
| `BlockManager.RecomputeClearsDeletedCells` | src/main/java/com/kamesuta/aroundfloor/BlockManager.java:67-70 | Every entry the update deletes is left holding air. |
| `BlockManager.RecomputeTouchesOnlyDelta` | src/main/java/com/kamesuta/aroundfloor/BlockManager.java:54-70 | Blocks and entries change only at display cells of coordinates that entered or left the player's set. |
| `BlockManager.UpdateVisibleBlocks` | src/main/java/com/kamesuta/aroundfloor/BlockManager.java:36-78 | If a last position exists and the move is below one block, nothing changes. Otherwise the last position becomes the current one and the player's set becomes exactly the scan result. Every other player's entries are unchanged and present as before, and the only new entry is the player's own. The invariant is preserved. No entry of the mirror table is left empty if none was before, invariant or not. Cells another player references are neither written nor lose that player. Deleted entries are left holding air. Nothing changes outside the display cells of the difference. |
| `BlockManager.OnPlayerJoin` | src/main/java/com/kamesuta/aroundfloor/BlockManager.java:192-200 | Installs an empty set and the join position and leaves the mirror table and the world unchanged. Other players' entries in both tables stay as they were, and the only new keys are the player's. The gate is then closed at that position, so an update there is a no-op. |
| `BlockManager.JoinPreservesConsistent` | src/main/java/com/kamesuta/aroundfloor/BlockManager.java:192-195 | Joining keeps the invariant for a player that observes nothing yet. |
| `BlockManager.RejoinBreaksConsistent` | src/main/java/com/kamesuta/aroundfloor/BlockManager.java:192-195 | In every consistent state where the player observes a mirrored coordinate, joining again breaks the invariant. Afterwards the player is still listed at that coordinate's cell but observes nothing. Quit touches only the cells of observed coordinates (see `BlockManager.OnPlayerQuit`), so quit does not clear that cell. |
| `BlockManager.RejoinLeavesStaleReference` | src/main/java/com/kamesuta/aroundfloor/BlockManager.java:192-195 | An example of the above: one player observing one mirrored coordinate is consistent, and after re-joining the player is the cell's only referencer while observing nothing. |
| `BlockManager.OnPlayerQuit` | src/main/java/com/kamesuta/aroundfloor/BlockManager.java:205-223 | Both of the player's entries are removed, and the world only ever gains air. Nothing outside the display cells of the player's set changes, and other players' cells are spared. Under the invariant, the invariant is kept and the player appears in no referencer set. Every cell the player referenced alone is deleted and set to air. Whether or not the invariant held, no entry of the mirror table is left empty if none was before. |
| `BlockManager.TotalObservedRemove` | src/main/java/com/kamesuta/aroundfloor/BlockManager.java:245-247 | The total of the set sizes does not depend on the order in which players are summed. |
| `BlockManager.GetStatistics` | src/main/java/com/kamesuta/aroundfloor/BlockManager.java:244-251 | Reports the number of players, the sum of their observation-set sizes and the number of mirrored cells. |
| `BlockManager.Cleanup` | src/main/java/com/kamesuta/aroundfloor/BlockManager.java:256-271 | Every mirrored cell becomes air, every other block is unchanged, and all three tables become empty. |
| `Scenario.StoneIsObservedAndMapped` | src/main/java/com/kamesuta/aroundfloor/BlockManager.java:94-111 | Under the defaults, a player at (0,64,0) observes a stone at (3,70,4), which is 5 blocks away, and that stone maps to (3,170,4). |
| `Scenario.DiscBoundary` | src/main/java/com/kamesuta/aroundfloor/BlockManager.java:97-98 | Distance exactly 10 is observed and distance 11 is not. A corner of the square outside the disc is not observed either. |
| `Scenario.TwoPlayersShareOneCell` | src/main/java/com/kamesuta/aroundfloor/BlockManager.java:134-181 | The first reference copies the stone and a second player's reference writes nothing. The first dereference keeps the stone, and the last one clears the cell to air and deletes its entry. |
| `Scenario.OutOfBandIsNeverMirrored` | src/main/java/com/kamesuta/aroundfloor/BlockManager.java:129-130 | A source at height 320 would display at 420, above the band, so referencing it changes nothing. |
| `Scenario.MirroredBlockIsObservedAgain` | src/main/java/com/kamesuta/aroundfloor/BlockManager.java:101-111 | The default bands overlap: a copy at height 170 is itself inside the source band, so a later scan observes it and would mirror it again at 270. |

## Behaviour worth knowing

- Registering a player that is already registered overwrites that player's observation set
  without dereferencing it. This is not the same as a quit followed by a join: cells the player
  referenced stay mirrored with no observer until cleanup, or until the player observes them
  again and leaves (`BlockManager.RejoinLeavesStaleReference`).
- The source block is copied whenever the referencer set has exactly one member after the
  insertion. That includes the sole referencer referencing the same cell again. Under the
  invariant this cannot happen within an update, because the add loop only visits newly
  observed coordinates.
- The invariant is stated for one fixed configuration. A reload that changes the offset or the
  display band leaves existing entries at cells computed with the old values, while later
  dereferences use the new ones.
- A player who joins and stands still mirrors nothing. The join handler
  (src/main/java/com/kamesuta/aroundfloor/PlayerListener.java:87-88) calls the update right
  after the join, at the same position. Join closes the movement gate there (`Gated` in
  `BlockManager.OnPlayerJoin`), so that update and every periodic one (line 133) do nothing
  until the player moves a block.
- While a player is in a world other than the one of their stored position, the distance test
  at BlockManager.java:42 raises an error on every update. A position without a world raises
  there too. The last position is written only after that test (line 46), so the player is
  not recomputed while this lasts. Updates resume when the player returns to the stored
  position's world, or after a quit and a join. Until then their old cells stay mirrored.

## Left out

- Plugin enable/disable, the command surface, permissions and chat messages: host plumbing.
- The event listener, its time-based rate limit, the periodic update task and exception
  logging: they only forward to the engine.
- Reading the configuration file and logging: `Configuration.LoadConfig` takes the stored
  keys as `Option` values.
- Debug log messages and the formatted statistics text: only the three counts are modelled.
- `isWithinRange`: it is never called.
- `BlockManager.UpdateVisibleBlocks`: positions are block coordinates, so the movement gate
  differs from the program's exact comparison (line 42) in both directions. The program
  compares exact positions but scans from the block coordinates (lines 90-91). From a stored
  x = 0.95 to x = 1.05 the squared distance is 0.01. The program keeps the set scanned from
  block 0 while the player stands in block 1; the model recomputes on every change of block.
  Conversely, a move from (0.0, 64.0, 0.0) to (0.9, 64.9, 0.9) stays inside one block but has
  squared distance 2.43. The program recomputes; the model gates it. So "the set is exactly
  the scan of the current position" is something the program does not always hold.
- The disc test is the integer test `dx*dx + dz*dz <= r*r`. The double-precision
  `Math.sqrt(...) > range` agrees with it for radii below about 2^26.
- Distance between positions in different worlds, or from a position without a world: the
  host library raises an error there, which suspends that player's updates while it lasts
  (see above). The model lets such a move pass the gate and recomputes.
- 32-bit overflow of block x and z: the world border keeps them within about 3 * 10^7.
  Heights, which the offset shifts, do wrap as Java `int`s.
- `Visibility.CalculateVisibleBlocks`: scans the intended square even where the loop bounds
  `centerX +- range` and `centerZ +- range` wrap. Validation accepts any radius >= 1, so those
  bounds wrap for radii above about 2^31 - 3 * 10^7. The code as written is modelled
  separately and listed under Findings.
- `BlockManager.GetStatistics`: reports unbounded counts. Java sums the set sizes with an
  `int` stream, which wraps at 2^31, and map sizes are `int`s. Reaching that needs more than
  2^31 stored coordinates, far beyond the memory of a server.
- The null-world checks of copy, remove and cleanup: a coordinate always carries a world in
  the model, so those returns cannot be reached. A position without a world is modelled.
- Block data is copied together with the material as one `Block` value. The null check on
  block data never fails in the host library.
- Host block physics: the one-argument `setType` and `setBlockData` writes (BlockManager.java
  lines 144-146, 181 and 262) apply physics, so falling blocks and fluids can change
  neighbouring cells. `Worlds.SetBlock` writes exactly one cell, so the world frames of
  `Mirror.CopyBlockToDisplay`, `Mirror.RemoveBlockFromDisplay`, `BlockManager.UpdateVisibleBlocks`,
  `BlockManager.OnPlayerQuit` and `BlockManager.Cleanup` hold only for the engine's own writes.
- `Visibility.CalculateVisibleBlocks`: keeps the loaded-chunk test as written. In the host,
  reading the block (line 103-106) loads its chunk before the test at line 109, so that test
  passes for every non-air block. The program then observes blocks in chunks that were not
  loaded before the scan, and the model excludes them.
- Thread-safe containers: the engine runs on one thread and the world is a value.
- `BlockManager.UpdateVisibleBlocks`: does not state which block a newly mirrored cell
  receives, because with overlapping bands an earlier copy in the same loop may already have
  changed its source. `Mirror.CopyBlockToDisplay` states it for a single reference.
- `BlockManager.OnPlayerQuit`: like update, it does not fix the order in which cells are
  cleared. Only air is written, so the final world does not depend on that order.

## Findings

| source | as written | input that shows it | evidently intended | confidence | as-written member | corrected member |
|---|---|---|---|---|---|---|
| src/main/java/com/kamesuta/aroundfloor/BlockManager.java:101 | `for (int y = sourceYMin; y <= sourceYMax; y++)` on a Java `int` | configuration `source-y-max: 2147483647`, which validation accepts | visit each height of the source band once and stop | high for the stated input; not executed | `Visibility.IncrementAsWritten`, `Visibility.ScanAtIntMaxNeverExits` | `Visibility.CalculateVisibleBlocks` |
| src/main/java/com/kamesuta/aroundfloor/BlockManager.java:94 | `for (int x = centerX - range; x <= centerX + range; x++)` on Java `int`s, and the same for z at line 95 | configuration `visibility-range: 2147483647`, which validation accepts; a player at block x = 1000 scans nothing, and a player at x = 0 never leaves the loop | visit each column of the square around the player once and stop | high for the stated input; not executed | `Visibility.ScanEndAsWritten`, `Visibility.WideRadiusScanAsWritten` | `Visibility.CalculateVisibleBlocks` |

=== FILE: block_manager.dfy ===
/**
  The engine's public operations (BlockManager.java): recompute on movement,
  join, quit, statistics and whole-table cleanup. Each is a transition from one
  `State` to the next.
 */
module BlockManager {
  import opened Configuration
  import opened Worlds
  import opened Visibility
  import opened Mirror

  /** The movement gate is closed: the player has a last position and has not moved a block from it. */
  predicate Gated(st: State, p: PlayerId, pos: Pos) {
    p in st.lastPos && MovedLessThanOneBlock(st.lastPos[p], pos)
  }

  /** The coordinates to reference and to dereference when `current` is replaced by `next`. */
  datatype Delta = Delta(toAdd: set<Coord>, toRemove: set<Coord>)

  function ComputeDelta(current: set<Coord>, next: set<Coord>): (d: Delta)
    ensures d.toAdd !! d.toRemove
    ensures d.toAdd !! current && d.toRemove <= current
    ensures d.toAdd <= next && d.toRemove !! next
    ensures (current + d.toAdd) - d.toRemove == next
  {
    Delta(next - current, current - next)
  }

  /** Lists the members of a set in some order; the order stands for `HashSet` iteration. */
  method Enumerate(s: set<Coord>) returns (xs: seq<Coord>)
    ensures Elems(xs) == s
    ensures |xs| == |s|
  {
    xs := [];
    var rest := s;
    while rest != {}
      invariant Elems(xs) !! rest
      invariant Elems(xs) + rest == s
      invariant |xs| + |rest| == |s|
      invariant |Elems(xs)| == |xs|
      decreases |rest|
    {
      var c :| c in rest;
      assert Elems(xs + [c]) == Elems(xs) + {c};
      xs := xs + [c];
      rest := rest - {c};
    }
  }

  /**
    The part of `updateVisibleBlocks` after the gate: records the position, applies
    the add loop over `addOrder` and the remove loop over `removeOrder`, and stores
    `next` as the player's observation set.
   */
  function Recompute(cfg: Config, st: State, p: PlayerId, pos: Pos, next: set<Coord>,
                     addOrder: seq<Coord>, removeOrder: seq<Coord>): State
  {
    var st1 := st.(lastPos := st.lastPos[p := pos]);
    var st3 := RemoveAll(cfg, CopyAll(cfg, st1, addOrder, p), removeOrder, p);
    st3.(visible := st3.visible[p := next])
  }

  /** Recompute keeps the table invariant whenever the loops visit exactly the delta. */
  lemma RecomputePreservesConsistent(cfg: Config, st: State, p: PlayerId, pos: Pos, next: set<Coord>,
                                     addOrder: seq<Coord>, removeOrder: seq<Coord>)
    requires Elems(addOrder) == next - Observed(st.visible, p)
    requires Elems(removeOrder) == Observed(st.visible, p) - next
    requires Consistent(cfg, st.visible, st.displayed)
    ensures Consistent(cfg, Recompute(cfg, st, p, pos, next, addOrder, removeOrder).visible,
                            Recompute(cfg, st, p, pos, next, addOrder, removeOrder).displayed)
  {
    var current := Observed(st.visible, p);
    var st1 := st.(lastPos := st.lastPos[p := pos]);
    var st2 := CopyAll(cfg, st1, addOrder, p);
    var st3 := RemoveAll(cfg, st2, removeOrder, p);
    var added := current + Elems(addOrder);
    ObservedEntryConsistent(cfg, st.visible, st.displayed, p);
    CopyAllPreservesConsistent(cfg, st1, addOrder, p, current);
    assert Consistent(cfg, st2.visible[p := added], st2.displayed);
    RemoveAllPreservesConsistent(cfg, st2, removeOrder, p, added);
    assert added - Elems(removeOrder) == next;
    assert Consistent(cfg, st3.visible[p := next], st3.displayed);
    RecomputeResult(cfg, st, p, pos, next, addOrder, removeOrder);
  }

  /** Recompute's result, spelled out in terms of the two loops. */
  lemma RecomputeResult(cfg: Config, st: State, p: PlayerId, pos: Pos, next: set<Coord>,
                        addOrder: seq<Coord>, removeOrder: seq<Coord>)
    ensures var st3 := RemoveAll(cfg, CopyAll(cfg, st.(lastPos := st.lastPos[p := pos]), addOrder, p), removeOrder, p);
      && Recompute(cfg, st, p, pos, next, addOrder, removeOrder).visible == st3.visible[p := next]
      && Recompute(cfg, st, p, pos, next, addOrder, removeOrder).displayed == st3.displayed
  {
  }

  /** Recompute records the position and replaces only the player's own observation set. */
  lemma RecomputeTables(cfg: Config, st: State, p: PlayerId, pos: Pos, next: set<Coord>,
                        addOrder: seq<Coord>, removeOrder: seq<Coord>)
    ensures var r := Recompute(cfg, st, p, pos, next, addOrder, removeOrder);
      && r.lastPos == st.lastPos[p := pos]
      && p in r.visible && r.visible[p] == next
      && (forall q :: q != p ==> Observed(r.visible, q) == Observed(st.visible, q))
      && r.visible.Keys == st.visible.Keys + {p}
      && r.world.loaded == st.world.loaded
  {
  }

  /** Recompute never writes a cell that another player references, nor drops that player from it. */
  lemma RecomputeSparesOtherReferencers(cfg: Config, st: State, p: PlayerId, pos: Pos, next: set<Coord>,
                                        addOrder: seq<Coord>, removeOrder: seq<Coord>)
    ensures var r := Recompute(cfg, st, p, pos, next, addOrder, removeOrder);
      forall d, q :: q != p && q in Referencers(st.displayed, d) ==>
        q in Referencers(r.displayed, d) && BlockAt(r.world, d) == BlockAt(st.world, d)
  {
    var st1 := st.(lastPos := st.lastPos[p := pos]);
    var st2 := CopyAll(cfg, st1, addOrder, p);
    var st3 := RemoveAll(cfg, st2, removeOrder, p);
    assert st3.world == Recompute(cfg, st, p, pos, next, addOrder, removeOrder).world;
    assert st3.displayed == Recompute(cfg, st, p, pos, next, addOrder, removeOrder).displayed;
  }

  /** Every entry recompute deletes is left holding air. */
  lemma RecomputeClearsDeletedCells(cfg: Config, st: State, p: PlayerId, pos: Pos, next: set<Coord>,
                                    addOrder: seq<Coord>, removeOrder: seq<Coord>)
    ensures var r := Recompute(cfg, st, p, pos, next, addOrder, removeOrder);
      forall d :: d in st.displayed && d !in r.displayed ==> BlockAt(r.world, d) == Air
  {
    var st1 := st.(lastPos := st.lastPos[p := pos]);
    var st2 := CopyAll(cfg, st1, addOrder, p);
    var st3 := RemoveAll(cfg, st2, removeOrder, p);
    assert st3.world == Recompute(cfg, st, p, pos, next, addOrder, removeOrder).world;
    assert st3.displayed == Recompute(cfg, st, p, pos, next, addOrder, removeOrder).displayed;
  }

  /** The two loops leave every cell outside the display cells of both sequences as it was. */
  lemma LoopsFrame(cfg: Config, st: State, xs: seq<Coord>, ys: seq<Coord>, p: PlayerId, c: Coord)
    requires c !in Displays(cfg, Elems(xs)) && c !in Displays(cfg, Elems(ys))
    ensures var r := RemoveAll(cfg, CopyAll(cfg, st, xs, p), ys, p);
      BlockAt(r.world, c) == BlockAt(st.world, c) && Referencers(r.displayed, c) == Referencers(st.displayed, c)
  {
  }

  /** Recompute touches only the display cells of the coordinates that entered or left the observation set. */
  lemma RecomputeTouchesOnlyDelta(cfg: Config, st: State, p: PlayerId, pos: Pos, next: set<Coord>,
                                  addOrder: seq<Coord>, removeOrder: seq<Coord>)
    requires Elems(addOrder) == next - Observed(st.visible, p)
    requires Elems(removeOrder) == Observed(st.visible, p) - next
    ensures var r := Recompute(cfg, st, p, pos, next, addOrder, removeOrder);
      forall c :: c !in Displays(cfg, Observed(r.visible, p) - Observed(st.visible, p)) &&
                  c !in Displays(cfg, Observed(st.visible, p) - Observed(r.visible, p)) ==>
        BlockAt(r.world, c) == BlockAt(st.world, c) && Referencers(r.displayed, c) == Referencers(st.displayed, c)
  {
    var st1 := st.(lastPos := st.lastPos[p := pos]);
    var r := Recompute(cfg, st, p, pos, next, addOrder, removeOrder);
    var current := Observed(st.visible, p);
    RecomputeTables(cfg, st, p, pos, next, addOrder, removeOrder);
    assert Observed(r.visible, p) - current == Elems(addOrder);
    assert current - Observed(r.visible, p) == Elems(removeOrder);
    forall c | c !in Displays(cfg, Elems(addOrder)) && c !in Displays(cfg, Elems(removeOrder))
      ensures BlockAt(r.world, c) == BlockAt(st.world, c) && Referencers(r.displayed, c) == Referencers(st.displayed, c)
    {
      LoopsFrame(cfg, st1, addOrder, removeOrder, p, c);
    }
  }

  /**
    `updateVisibleBlocks`: unless the movement gate is closed, records the position,
    recomputes the observed set, references what is new, dereferences what is gone,
    and stores the new set.
   */
  method UpdateVisibleBlocks(cfg: Config, st: State, p: PlayerId, pos: Pos) returns (r: State)
    ensures Gated(st, p, pos) ==> r == st
    ensures !Gated(st, p, pos) ==> r.lastPos == st.lastPos[p := pos]
    ensures !Gated(st, p, pos) ==>
      p in r.visible && forall c :: c in r.visible[p] <==> IsVisible(cfg, st.world, pos, c)
    ensures forall q :: q != p ==> Observed(r.visible, q) == Observed(st.visible, q)
    ensures !Gated(st, p, pos) ==> r.visible.Keys == st.visible.Keys + {p}
    ensures r.world.loaded == st.world.loaded
    ensures Consistent(cfg, st.visible, st.displayed) ==> Consistent(cfg, r.visible, r.displayed)
    ensures NoEmptyEntries(st.displayed) ==> NoEmptyEntries(r.displayed)
    ensures forall d, q :: q != p && q in Referencers(st.displayed, d) ==>
      q in Referencers(r.displayed, d) && BlockAt(r.world, d) == BlockAt(st.world, d)
    ensures forall d :: d in st.displayed && d !in r.displayed ==> BlockAt(r.world, d) == Air
    ensures forall c ::
      c !in Displays(cfg, Observed(r.visible, p) - Observed(st.visible, p)) &&
      c !in Displays(cfg, Observed(st.visible, p) - Observed(r.visible, p)) ==>
        BlockAt(r.world, c) == BlockAt(st.world, c) && Referencers(r.displayed, c) == Referencers(st.displayed, c)
  {
    if p in st.lastPos && MovedLessThanOneBlock(st.lastPos[p], pos) {
      return st;
    }
    var current := Observed(st.visible, p);
    var next := CalculateVisibleBlocks(cfg, st.world, pos);
    var delta := ComputeDelta(current, next);
    var addOrder := Enumerate(delta.toAdd);
    var removeOrder := Enumerate(delta.toRemove);
    r := Recompute(cfg, st, p, pos, next, addOrder, removeOrder);
    RecomputeTables(cfg, st, p, pos, next, addOrder, removeOrder);
    RecomputeSparesOtherReferencers(cfg, st, p, pos, next, addOrder, removeOrder);
    RecomputeClearsDeletedCells(cfg, st, p, pos, next, addOrder, removeOrder);
    RecomputeTouchesOnlyDelta(cfg, st, p, pos, next, addOrder, removeOrder);
    if Consistent(cfg, st.visible, st.displayed) {
      RecomputePreservesConsistent(cfg, st, p, pos, next, addOrder, removeOrder);
    }
  }

  /** `onPlayerJoin`: an empty observation set and the join position; the mirror is untouched. */
  function OnPlayerJoin(st: State, p: PlayerId, pos: Pos): (r: State)
    ensures r.displayed == st.displayed && r.world == st.world
    ensures p in r.visible && r.visible[p] == {}
    ensures forall q :: q != p ==> Observed(r.visible, q) == Observed(st.visible, q)
    ensures p in r.lastPos && r.lastPos[p] == pos
    ensures forall q :: q != p && q in st.lastPos ==> q in r.lastPos && r.lastPos[q] == st.lastPos[q]
    ensures r.visible.Keys == st.visible.Keys + {p} && r.lastPos.Keys == st.lastPos.Keys + {p}
    ensures Gated(r, p, pos)
  {
    st.(visible := st.visible[p := {}], lastPos := st.lastPos[p := pos])
  }

  /** Joining keeps the invariant when the player observes nothing yet. */
  lemma JoinPreservesConsistent(cfg: Config, st: State, p: PlayerId, pos: Pos)
    requires Consistent(cfg, st.visible, st.displayed)
    requires Observed(st.visible, p) == {}
    ensures Consistent(cfg, OnPlayerJoin(st, p, pos).visible, OnPlayerJoin(st, p, pos).displayed)
  {
    ObservedEntryConsistent(cfg, st.visible, st.displayed, p);
  }

  /** One player observing one mirrored coordinate, with its cell referenced, satisfies the invariant. */
  lemma SingleObservationConsistent(cfg: Config, p: PlayerId, s: Coord)
    requires Mirrors(cfg, s)
    ensures Consistent(cfg, map[p := {s}], map[DisplayOf(cfg, s) := {p}])
  {
    var visible := map[p := {s}];
    var displayed := map[DisplayOf(cfg, s) := {p}];
    SourceOfDisplayOf(cfg, s);
    forall e, q | References(cfg, visible, q, e)
      ensures e in displayed && q in displayed[e]
    {
      DisplayOfSourceOf(cfg, e);
    }
  }

  /**
    Joining again while still observing mirrored blocks overwrites the observation
    set without dereferencing it: the player stays listed at a cell it no longer observes.
   */
  lemma RejoinLeavesStaleReference(cfg: Config, p: PlayerId, s: Coord, pos: Pos)
    requires Mirrors(cfg, s)
    ensures var st := State(map[p := {s}], map[DisplayOf(cfg, s) := {p}], map[], World(map[], {}));
            && Consistent(cfg, st.visible, st.displayed)
            && !Consistent(cfg, OnPlayerJoin(st, p, pos).visible, OnPlayerJoin(st, p, pos).displayed)
            && DisplayOf(cfg, s) in OnPlayerJoin(st, p, pos).displayed
            && OnPlayerJoin(st, p, pos).displayed[DisplayOf(cfg, s)] == {p}
            && Observed(OnPlayerJoin(st, p, pos).visible, p) == {}
  {
    var d := DisplayOf(cfg, s);
    var st := State(map[p := {s}], map[d := {p}], map[], World(map[], {}));
    SingleObservationConsistent(cfg, p, s);
    var j := OnPlayerJoin(st, p, pos);
    assert d in j.displayed && p in j.displayed[d] && !References(cfg, j.visible, p, d);
  }

  /**
    Joining over any consistent state in which the player observes a mirrored
    coordinate breaks the invariant: the player stays the referencer of the
    coordinate's cell but no longer observes it.
   */
  lemma RejoinBreaksConsistent(cfg: Config, st: State, p: PlayerId, s: Coord, pos: Pos)
    requires Consistent(cfg, st.visible, st.displayed)
    requires s in Observed(st.visible, p) && Mirrors(cfg, s)
    ensures var j := OnPlayerJoin(st, p, pos);
      && !Consistent(cfg, j.visible, j.displayed)
      && DisplayOf(cfg, s) in j.displayed && p in j.displayed[DisplayOf(cfg, s)]
      && Observed(j.visible, p) == {}
  {
    var d := DisplayOf(cfg, s);
    SourceOfDisplayOf(cfg, s);
    assert References(cfg, st.visible, p, d);
    var j := OnPlayerJoin(st, p, pos);
    assert !References(cfg, j.visible, p, d);
  }

  /**
    `onPlayerQuit`: dereferences every coordinate the player observes, then drops
    both of the player's entries.
   */
  method OnPlayerQuit(cfg: Config, st: State, p: PlayerId) returns (r: State)
    ensures r.visible == st.visible - {p} && r.lastPos == st.lastPos - {p}
    ensures r.world.loaded == st.world.loaded
    ensures forall c :: BlockAt(r.world, c) == BlockAt(st.world, c) || BlockAt(r.world, c) == Air
    ensures forall c :: c !in Displays(cfg, Observed(st.visible, p)) ==>
      BlockAt(r.world, c) == BlockAt(st.world, c) && Referencers(r.displayed, c) == Referencers(st.displayed, c)
    ensures forall d, q :: q != p && q in Referencers(st.displayed, d) ==>
      q in Referencers(r.displayed, d) && BlockAt(r.world, d) == BlockAt(st.world, d)
    ensures forall d :: d in st.displayed && d !in r.displayed ==> BlockAt(r.world, d) == Air
    ensures Consistent(cfg, st.visible, st.displayed) ==> Consistent(cfg, r.visible, r.displayed)
    ensures NoEmptyEntries(st.displayed) ==> NoEmptyEntries(r.displayed)
    ensures Consistent(cfg, st.visible, st.displayed) ==> forall d :: p !in Referencers(r.displayed, d)
    ensures Consistent(cfg, st.visible, st.displayed) ==>
      forall d :: Referencers(st.displayed, d) == {p} ==> d !in r.displayed && BlockAt(r.world, d) == Air
  {
    var observed := Observed(st.visible, p);
    var order := Enumerate(observed);
    var st1 := RemoveAll(cfg, st, order, p);
    r := st1.(visible := st1.visible - {p}, lastPos := st1.lastPos - {p});

    if Consistent(cfg, st.visible, st.displayed) {
      ObservedEntryConsistent(cfg, st.visible, st.displayed, p);
      RemoveAllPreservesConsistent(cfg, st, order, p, observed);
      assert observed - Elems(order) == {};
      EmptyEntryIrrelevant(cfg, st.visible, st1.displayed, p);
      forall d | Referencers(st.displayed, d) == {p}
        ensures d !in r.displayed
      {
        if d in r.displayed {
          var q :| q in r.displayed[d];
          assert References(cfg, r.visible, q, d);
          assert References(cfg, st.visible, q, d);
          assert false;
        }
      }
    }
  }

  /** The counts that statistics report. */
  datatype Statistics = Statistics(players: nat, observedBlocks: nat, displayedBlocks: nat)

  /** The sum of the sizes of all observation sets. */
  ghost function TotalObserved(visible: map<PlayerId, set<Coord>>): nat
    decreases |visible|
  {
    if visible == map[] then 0
    else
      var p :| p in visible;
      assert (visible - {p}).Keys == visible.Keys - {p};
      |visible[p]| + TotalObserved(visible - {p})
  }

  /** The sum does not depend on which player is counted first. */
  lemma {:induction false} TotalObservedRemove(visible: map<PlayerId, set<Coord>>, k: PlayerId)
    requires k in visible
    ensures TotalObserved(visible) == |visible[k]| + TotalObserved(visible - {k})
    decreases |visible|
  {
    var p :| p in visible && TotalObserved(visible) == |visible[p]| + TotalObserved(visible - {p});
    if p != k {
      assert (visible - {p}).Keys == visible.Keys - {p};
      assert (visible - {k}).Keys == visible.Keys - {k};
      TotalObservedRemove(visible - {p}, k);
      TotalObservedRemove(visible - {k}, p);
      assert visible - {p} - {k} == visible - {k} - {p};
    }
  }

  /** `getStatistics`: players, observed coordinates over all players, mirrored cells. */
  method GetStatistics(st: State) returns (stats: Statistics)
    ensures stats.players == |st.visible|
    ensures stats.observedBlocks == TotalObserved(st.visible)
    ensures stats.displayedBlocks == |st.displayed|
  {
    var total := 0;
    var rest := st.visible;
    while rest != map[]
      invariant total + TotalObserved(rest) == TotalObserved(st.visible)
      decreases |rest|
    {
      var p :| p in rest;
      TotalObservedRemove(rest, p);
      assert (rest - {p}).Keys == rest.Keys - {p};
      total := total + |rest[p]|;
      rest := rest - {p};
    }
    stats := Statistics(|st.visible|, total, |st.displayed|);
  }

  /** `cleanup`: writes air at every mirrored cell, then empties all three tables. */
  function Cleanup(st: State): (r: State)
    ensures r.visible == map[] && r.displayed == map[] && r.lastPos == map[]
    ensures r.world.loaded == st.world.loaded
    ensures forall c :: c in st.displayed ==> BlockAt(r.world, c) == Air
    ensures forall c :: c !in st.displayed ==> BlockAt(r.world, c) == BlockAt(st.world, c)
  {
    var blocks := map c | c in st.world.blocks.Keys + st.displayed.Keys ::
      if c in st.displayed then Air else st.world.blocks[c];
    State(map[], map[], map[], World(blocks, st.world.loaded))
  }
}

=== FILE: configuration.dfy ===
/**
  The validated parameters of the mirror and the vertical transform between the
  source band and the display band (Config.java).
 */
module Configuration {
  import opened Int32
  import opened Wrappers

  datatype Config = Config(
    visibilityRange: int32,
    sourceYMin: int32,
    sourceYMax: int32,
    displayYMin: int32,
    displayYMax: int32,
    yOffset: int32,
    updateInterval: int32,
    debug: bool)

  /** The value of every parameter whose key is absent. */
  const Defaults: Config := Config(10, -50, 319, 50, 419, 100, 20, false)

  /** The four groups that validation checks, each on its own. */
  predicate RangeValid(c: Config) { c.visibilityRange >= 1 }
  predicate SourceBandValid(c: Config) { c.sourceYMax > c.sourceYMin }
  predicate DisplayBandValid(c: Config) { c.displayYMax > c.displayYMin }
  predicate IntervalValid(c: Config) { c.updateInterval >= 1 }

  predicate WellFormed(c: Config) {
    RangeValid(c) && SourceBandValid(c) && DisplayBandValid(c) && IntervalValid(c)
  }

  /**
    Resets every group whose check fails to its defaults, as a whole, and keeps
    every other value. The literals here are the ones the validator writes; the
    contract ties them to `Defaults`.
   */
  function Validate(c: Config): (r: Config)
    ensures WellFormed(r)
    ensures r.visibilityRange == (if RangeValid(c) then c.visibilityRange else Defaults.visibilityRange)
    ensures SourceBandValid(c) ==> r.sourceYMin == c.sourceYMin && r.sourceYMax == c.sourceYMax
    ensures !SourceBandValid(c) ==> r.sourceYMin == Defaults.sourceYMin && r.sourceYMax == Defaults.sourceYMax
    ensures DisplayBandValid(c) ==> r.displayYMin == c.displayYMin && r.displayYMax == c.displayYMax
    ensures !DisplayBandValid(c) ==> r.displayYMin == Defaults.displayYMin && r.displayYMax == Defaults.displayYMax
    ensures r.updateInterval == (if IntervalValid(c) then c.updateInterval else Defaults.updateInterval)
    ensures r.yOffset == c.yOffset && r.debug == c.debug
    ensures r == c <==> WellFormed(c)
  {
    var c1 := if c.visibilityRange <= 0 then c.(visibilityRange := 10) else c;
    var c2 := if c1.sourceYMax <= c1.sourceYMin then c1.(sourceYMin := -50, sourceYMax := 319) else c1;
    var c3 := if c2.displayYMax <= c2.displayYMin then c2.(displayYMin := 50, displayYMax := 419) else c2;
    if c3.updateInterval <= 0 then c3.(updateInterval := 20) else c3
  }

  /** Validation is idempotent: a validated configuration passes unchanged. */
  lemma ValidateIdempotent(c: Config)
    ensures Validate(Validate(c)) == Validate(c)
  {
  }

  /** The keys of the configuration file; `None` is a key that is absent. */
  datatype StoredConfig = StoredConfig(
    visibilityRange: Option<int32>,
    sourceYMin: Option<int32>,
    sourceYMax: Option<int32>,
    displayYMin: Option<int32>,
    displayYMax: Option<int32>,
    yOffset: Option<int32>,
    updateInterval: Option<int32>,
    debug: Option<bool>)

  const NoKeys: StoredConfig := StoredConfig(None, None, None, None, None, None, None, None)

  /**
    Reads every key with its default, then validates. The literals here are the
    ones the loader passes; the contract ties them to `Defaults`, key by key.
   */
  function LoadConfig(s: StoredConfig): (c: Config)
    ensures WellFormed(c)
    ensures c == Validate(Config(
      s.visibilityRange.GetOr(Defaults.visibilityRange),
      s.sourceYMin.GetOr(Defaults.sourceYMin),
      s.sourceYMax.GetOr(Defaults.sourceYMax),
      s.displayYMin.GetOr(Defaults.displayYMin),
      s.displayYMax.GetOr(Defaults.displayYMax),
      s.yOffset.GetOr(Defaults.yOffset),
      s.updateInterval.GetOr(Defaults.updateInterval),
      s.debug.GetOr(Defaults.debug)))
    ensures s == NoKeys ==> c == Defaults
    ensures c.yOffset == s.yOffset.GetOr(Defaults.yOffset)
    ensures c.debug == s.debug.GetOr(Defaults.debug)
    ensures var r := s.visibilityRange.GetOr(Defaults.visibilityRange);
      c.visibilityRange == (if r >= 1 then r else Defaults.visibilityRange)
    ensures var lo, hi := s.sourceYMin.GetOr(Defaults.sourceYMin), s.sourceYMax.GetOr(Defaults.sourceYMax);
      (lo < hi ==> c.sourceYMin == lo && c.sourceYMax == hi)
      && (hi <= lo ==> c.sourceYMin == Defaults.sourceYMin && c.sourceYMax == Defaults.sourceYMax)
    ensures var lo, hi := s.displayYMin.GetOr(Defaults.displayYMin), s.displayYMax.GetOr(Defaults.displayYMax);
      (lo < hi ==> c.displayYMin == lo && c.displayYMax == hi)
      && (hi <= lo ==> c.displayYMin == Defaults.displayYMin && c.displayYMax == Defaults.displayYMax)
    ensures var t := s.updateInterval.GetOr(Defaults.updateInterval);
      c.updateInterval == (if t >= 1 then t else Defaults.updateInterval)
  {
    Validate(Config(
      s.visibilityRange.GetOr(10),
      s.sourceYMin.GetOr(-50),
      s.sourceYMax.GetOr(319),
      s.displayYMin.GetOr(50),
      s.displayYMax.GetOr(419),
      s.yOffset.GetOr(100),
      s.updateInterval.GetOr(20),
      s.debug.GetOr(false)))
  }

  /** The configuration file that spells out every key of `c`. */
  function Store(c: Config): StoredConfig {
    StoredConfig(Some(c.visibilityRange), Some(c.sourceYMin), Some(c.sourceYMax), Some(c.displayYMin),
      Some(c.displayYMax), Some(c.yOffset), Some(c.updateInterval), Some(c.debug))
  }

  /**
    Loading is the inverse of writing out a well-formed configuration, and every
    load yields a configuration that writes out and loads back unchanged.
   */
  lemma LoadStoreRoundTrip(c: Config, s: StoredConfig)
    ensures WellFormed(c) <==> LoadConfig(Store(c)) == c
    ensures LoadConfig(Store(LoadConfig(s))) == LoadConfig(s)
  {
  }

  /** The display height of a source height: `y + yOffset` in Java `int` arithmetic. */
  function CalculateDisplayY(c: Config, sourceY: int32): (r: int32)
    ensures MIN <= sourceY + c.yOffset <= MAX ==> r == sourceY + c.yOffset
  {
    Wrap(sourceY + c.yOffset)
  }

  /** The source height a display height comes from: the inverse of `CalculateDisplayY`. */
  function SourceY(c: Config, displayY: int32): int32 {
    Wrap(displayY - c.yOffset)
  }

  lemma SourceYOfDisplayY(c: Config, y: int32)
    ensures SourceY(c, CalculateDisplayY(c, y)) == y
  {
    WrapAdd(y + c.yOffset, -(c.yOffset as int));
  }

  lemma DisplayYOfSourceY(c: Config, d: int32)
    ensures CalculateDisplayY(c, SourceY(c, d)) == d
  {
    WrapAdd(d - c.yOffset, c.yOffset);
  }

  /** Distinct source heights have distinct display heights. */
  lemma DisplayYInjective(c: Config, a: int32, b: int32)
    ensures CalculateDisplayY(c, a) == CalculateDisplayY(c, b) ==> a == b
  {
    SourceYOfDisplayY(c, a);
    SourceYOfDisplayY(c, b);
  }

  predicate InSourceRange(c: Config, y: int) {
    c.sourceYMin <= y <= c.sourceYMax
  }

  predicate InDisplayRange(c: Config, y: int) {
    c.displayYMin <= y <= c.displayYMax
  }

  /** Both bands include both of their endpoints and nothing beyond them. */
  lemma BandsInclusive(c: Config)
    requires WellFormed(c)
    ensures InSourceRange(c, c.sourceYMin) && InSourceRange(c, c.sourceYMax)
    ensures !InSourceRange(c, c.sourceYMin - 1) && !InSourceRange(c, c.sourceYMax + 1)
    ensures InDisplayRange(c, c.displayYMin) && InDisplayRange(c, c.displayYMax)
    ensures !InDisplayRange(c, c.displayYMin - 1) && !InDisplayRange(c, c.displayYMax + 1)
  {
  }

  /**
    Under the defaults the display band is the source band shifted by the offset:
    a height is in the source band exactly when its display height is in the
    display band, wrap-around included.
   */
  lemma DefaultBandsCorrespond(y: int32)
    ensures InSourceRange(Defaults, y) <==> InDisplayRange(Defaults, CalculateDisplayY(Defaults, y))
  {
  }
}

=== FILE: int32.dfy ===
/** Java's 32-bit `int`, and the wrap-around of its addition. */
module Int32 {

  const MIN: int := -0x8000_0000
  const MAX: int := 0x7fff_ffff
  const MODULUS: int := 0x1_0000_0000

  /** The values of a Java `int`. */
  type int32 = v: int | -0x8000_0000 <= v <= 0x7fff_ffff

  /** The Java `int` congruent to `v` modulo 2^32: what `+` and `-` on `int` produce. */
  function Wrap(v: int): (r: int32)
    ensures MIN <= v <= MAX ==> r == v
    ensures (v - r) % MODULUS == 0
  {
    (v - MIN) % MODULUS + MIN
  }

  /** Adding a multiple of 2^32 does not change a residue. */
  lemma ModAddMultiple(n: int, y: int)
    ensures (MODULUS * n + y) % MODULUS == y % MODULUS
  {
  }

  /** Wrapping an intermediate sum does not change the final wrapped result. */
  lemma WrapAdd(a: int, b: int)
    ensures Wrap(Wrap(a) + b) == Wrap(a + b)
  {
    var x := a - MIN;
    assert x == MODULUS * (x / MODULUS) + x % MODULUS;
    ModAddMultiple(x / MODULUS, x % MODULUS + b);
  }
}

=== FILE: mirror.dfy ===
/**
  The reference-counted mirror table of BlockManager.java: reference and
  dereference of one display cell, the same applied along a sequence of source
  coordinates, and the invariant that ties the table to the players' observation
  sets.
 */
module Mirror {
  import opened Configuration
  import opened Worlds

  datatype PlayerId = PlayerId(uuid: int)

  /**
    The engine's three tables and the world they act on:
    `visible` — per player, the source coordinates the player observes;
    `displayed` — per display coordinate, the players that reference it;
    `lastPos` — per player, the position of the last recompute.
   */
  datatype State = State(
    visible: map<PlayerId, set<Coord>>,
    displayed: map<Coord, set<PlayerId>>,
    lastPos: map<PlayerId, Pos>,
    world: World)

  /** The display coordinate a source coordinate is mirrored to. */
  function DisplayOf(cfg: Config, s: Coord): Coord {
    s.(y := CalculateDisplayY(cfg, s.y))
  }

  /** The source coordinate a display coordinate mirrors. */
  function SourceOf(cfg: Config, d: Coord): Coord {
    d.(y := SourceY(cfg, d.y))
  }

  lemma SourceOfDisplayOf(cfg: Config, s: Coord)
    ensures SourceOf(cfg, DisplayOf(cfg, s)) == s
  {
    SourceYOfDisplayY(cfg, s.y);
  }

  lemma DisplayOfSourceOf(cfg: Config, d: Coord)
    ensures DisplayOf(cfg, SourceOf(cfg, d)) == d
  {
    DisplayYOfSourceY(cfg, d.y);
  }

  /** A source coordinate has a display cell only when its display height is in the display band. */
  predicate Mirrors(cfg: Config, s: Coord) {
    InDisplayRange(cfg, CalculateDisplayY(cfg, s.y))
  }

  /** The players referencing a display coordinate; an absent entry is the empty set. */
  function Referencers(displayed: map<Coord, set<PlayerId>>, d: Coord): set<PlayerId> {
    if d in displayed then displayed[d] else {}
  }

  /** The coordinates a player observes; an absent entry is the empty set. */
  function Observed(visible: map<PlayerId, set<Coord>>, p: PlayerId): set<Coord> {
    if p in visible then visible[p] else {}
  }

  ghost predicate NoEmptyEntries(displayed: map<Coord, set<PlayerId>>) {
    forall d :: d in displayed ==> displayed[d] != {}
  }

  /**
    `copyBlockToDisplay`: adds `p` to the referencers of the display cell of `s`,
    and copies the source block there when `p` is then its only referencer.
   */
  function CopyBlockToDisplay(cfg: Config, st: State, s: Coord, p: PlayerId): (r: State)
    ensures r.visible == st.visible && r.lastPos == st.lastPos && r.world.loaded == st.world.loaded
    ensures !Mirrors(cfg, s) ==> r == st
    ensures Mirrors(cfg, s) ==>
      Referencers(r.displayed, DisplayOf(cfg, s)) == Referencers(st.displayed, DisplayOf(cfg, s)) + {p}
    ensures forall e :: e != DisplayOf(cfg, s) ==>
      Referencers(r.displayed, e) == Referencers(st.displayed, e) && BlockAt(r.world, e) == BlockAt(st.world, e)
    ensures Mirrors(cfg, s) && |Referencers(r.displayed, DisplayOf(cfg, s))| == 1 ==>
      BlockAt(r.world, DisplayOf(cfg, s)) == BlockAt(st.world, s)
    ensures |Referencers(r.displayed, DisplayOf(cfg, s))| != 1 ==> r.world == st.world
    ensures st.displayed.Keys <= r.displayed.Keys
    ensures NoEmptyEntries(st.displayed) ==> NoEmptyEntries(r.displayed)
  {
    var d := DisplayOf(cfg, s);
    if !InDisplayRange(cfg, d.y) then st
    else
      var refs := Referencers(st.displayed, d) + {p};
      var w := if |refs| == 1 then SetBlock(st.world, d, BlockAt(st.world, s)) else st.world;
      st.(displayed := st.displayed[d := refs], world := w)
  }

  /** A display cell already referenced by another player is not written when `p` references it. */
  lemma SecondReferencerDoesNotWrite(cfg: Config, st: State, s: Coord, p: PlayerId, q: PlayerId)
    requires q != p && q in Referencers(st.displayed, DisplayOf(cfg, s))
    ensures CopyBlockToDisplay(cfg, st, s, p).world == st.world
    ensures q in Referencers(CopyBlockToDisplay(cfg, st, s, p).displayed, DisplayOf(cfg, s))
  {
    var refs := Referencers(st.displayed, DisplayOf(cfg, s)) + {p};
    assert {p, q} <= refs;
    assert |{p, q}| == 2;
    SubsetCardinality({p, q}, refs);
  }

  /** Referencing by `p` leaves every other player's display cells, and their blocks, in place. */
  lemma CopyKeepsOtherReferencers(cfg: Config, st: State, s: Coord, p: PlayerId)
    ensures forall e, q :: q != p && q in Referencers(st.displayed, e) ==>
      q in Referencers(CopyBlockToDisplay(cfg, st, s, p).displayed, e) &&
      BlockAt(CopyBlockToDisplay(cfg, st, s, p).world, e) == BlockAt(st.world, e)
  {
    forall e, q | q != p && q in Referencers(st.displayed, e)
      ensures q in Referencers(CopyBlockToDisplay(cfg, st, s, p).displayed, e)
      ensures BlockAt(CopyBlockToDisplay(cfg, st, s, p).world, e) == BlockAt(st.world, e)
    {
      if e == DisplayOf(cfg, s) {
        SecondReferencerDoesNotWrite(cfg, st, s, p, q);
      }
    }
  }

  lemma SubsetCardinality<T>(a: set<T>, b: set<T>)
    requires a <= b
    ensures |a| <= |b|
  {
    assert b == a + (b - a);
  }

  /**
    `removeBlockFromDisplay`: removes `p` from the referencers of the display cell
    of `s`; when none remain, deletes the entry and writes air there.
   */
  function RemoveBlockFromDisplay(cfg: Config, st: State, s: Coord, p: PlayerId): (r: State)
    ensures r.visible == st.visible && r.lastPos == st.lastPos && r.world.loaded == st.world.loaded
    ensures !Mirrors(cfg, s) || DisplayOf(cfg, s) !in st.displayed ==> r == st
    ensures Mirrors(cfg, s) ==>
      Referencers(r.displayed, DisplayOf(cfg, s)) == Referencers(st.displayed, DisplayOf(cfg, s)) - {p}
    ensures forall e :: e != DisplayOf(cfg, s) ==>
      Referencers(r.displayed, e) == Referencers(st.displayed, e) && BlockAt(r.world, e) == BlockAt(st.world, e)
    ensures Mirrors(cfg, s) && DisplayOf(cfg, s) in st.displayed ==>
      (DisplayOf(cfg, s) !in r.displayed <==> st.displayed[DisplayOf(cfg, s)] <= {p})
    ensures DisplayOf(cfg, s) in st.displayed && DisplayOf(cfg, s) !in r.displayed ==>
      BlockAt(r.world, DisplayOf(cfg, s)) == Air
    ensures DisplayOf(cfg, s) in r.displayed || DisplayOf(cfg, s) !in st.displayed ==> r.world == st.world
    ensures r.displayed.Keys <= st.displayed.Keys
    ensures forall e :: e in r.displayed ==> r.displayed[e] == st.displayed[e] || r.displayed[e] != {}
  {
    var d := DisplayOf(cfg, s);
    if !InDisplayRange(cfg, d.y) || d !in st.displayed then st
    else
      var refs := st.displayed[d] - {p};
      if refs == {} then
        st.(displayed := st.displayed - {d}, world := SetBlock(st.world, d, Air))
      else
        st.(displayed := st.displayed[d := refs])
  }

  function Elems(xs: seq<Coord>): set<Coord> {
    set s | s in xs
  }

  lemma ElemsCons(xs: seq<Coord>)
    requires xs != []
    ensures Elems(xs) == {xs[0]} + Elems(xs[1..])
  {
    assert forall s :: s in xs <==> s == xs[0] || s in xs[1..];
  }

  /** The display cells of the mirrored coordinates among `sources`. */
  function Displays(cfg: Config, sources: set<Coord>): set<Coord> {
    set s | s in sources && Mirrors(cfg, s) :: DisplayOf(cfg, s)
  }

  lemma DisplaysCons(cfg: Config, xs: seq<Coord>)
    requires xs != []
    ensures Displays(cfg, Elems(xs[1..])) <= Displays(cfg, Elems(xs))
    ensures Mirrors(cfg, xs[0]) ==> DisplayOf(cfg, xs[0]) in Displays(cfg, Elems(xs))
  {
    ElemsCons(xs);
  }

  /** The add loop: `CopyBlockToDisplay` for every coordinate of `xs`, in order. */
  function CopyAll(cfg: Config, st: State, xs: seq<Coord>, p: PlayerId): (r: State)
    decreases |xs|
    ensures r.visible == st.visible && r.lastPos == st.lastPos && r.world.loaded == st.world.loaded
    ensures st.displayed.Keys <= r.displayed.Keys
    ensures NoEmptyEntries(st.displayed) ==> NoEmptyEntries(r.displayed)
    ensures forall e :: e !in Displays(cfg, Elems(xs)) ==>
      Referencers(r.displayed, e) == Referencers(st.displayed, e) && BlockAt(r.world, e) == BlockAt(st.world, e)
    ensures forall e, q :: q != p && q in Referencers(st.displayed, e) ==>
      q in Referencers(r.displayed, e) && BlockAt(r.world, e) == BlockAt(st.world, e)
  {
    if xs == [] then st
    else
      DisplaysCons(cfg, xs);
      CopyKeepsOtherReferencers(cfg, st, xs[0], p);
      CopyAll(cfg, CopyBlockToDisplay(cfg, st, xs[0], p), xs[1..], p)
  }

  /** The remove loop: `RemoveBlockFromDisplay` for every coordinate of `xs`, in order. */
  function RemoveAll(cfg: Config, st: State, xs: seq<Coord>, p: PlayerId): (r: State)
    decreases |xs|
    ensures r.visible == st.visible && r.lastPos == st.lastPos && r.world.loaded == st.world.loaded
    ensures r.displayed.Keys <= st.displayed.Keys
    ensures NoEmptyEntries(st.displayed) ==> NoEmptyEntries(r.displayed)
    ensures forall e :: e !in Displays(cfg, Elems(xs)) ==>
      Referencers(r.displayed, e) == Referencers(st.displayed, e) && BlockAt(r.world, e) == BlockAt(st.world, e)
    ensures forall e, q :: q != p && q in Referencers(st.displayed, e) ==>
      q in Referencers(r.displayed, e) && BlockAt(r.world, e) == BlockAt(st.world, e)
    ensures forall e :: BlockAt(r.world, e) == BlockAt(st.world, e) || BlockAt(r.world, e) == Air
    ensures forall e :: e in st.displayed && e !in r.displayed ==> BlockAt(r.world, e) == Air
  {
    if xs == [] then st
    else
      DisplaysCons(cfg, xs);
      RemoveAll(cfg, RemoveBlockFromDisplay(cfg, st, xs[0], p), xs[1..], p)
  }

  /** Player `q` observes the source of display cell `d`, and `d` lies in the display band. */
  ghost predicate References(cfg: Config, visible: map<PlayerId, set<Coord>>, q: PlayerId, d: Coord) {
    q in visible && SourceOf(cfg, d) in visible[q] && InDisplayRange(cfg, d.y)
  }

  /**
    The table invariant: no entry of `displayed` is empty, and a player is listed
    at a display cell exactly when the player observes that cell's source.
   */
  ghost predicate Consistent(cfg: Config, visible: map<PlayerId, set<Coord>>, displayed: map<Coord, set<PlayerId>>) {
    && NoEmptyEntries(displayed)
    && (forall d, q :: d in displayed && q in displayed[d] ==> References(cfg, visible, q, d))
    && (forall d, q :: References(cfg, visible, q, d) ==> d in displayed && q in displayed[d])
  }

  /**
    Under the invariant the referencers of every display cell are exactly the
    players with some observed, mirrored source mapping to it; and conversely.
   */
  lemma ConsistentIffExactReferencers(cfg: Config, visible: map<PlayerId, set<Coord>>, displayed: map<Coord, set<PlayerId>>)
    ensures Consistent(cfg, visible, displayed) <==>
      NoEmptyEntries(displayed) &&
      forall d :: Referencers(displayed, d) == DerivedReferencers(cfg, visible, d)
  {
    forall d, q
      ensures q in DerivedReferencers(cfg, visible, d) <==> References(cfg, visible, q, d)
    {
      DisplayOfSourceOf(cfg, d);
      if q in DerivedReferencers(cfg, visible, d) {
        var s :| s in visible[q] && Mirrors(cfg, s) && DisplayOf(cfg, s) == d;
        SourceOfDisplayOf(cfg, s);
      }
    }
    if Consistent(cfg, visible, displayed) {
      forall d ensures Referencers(displayed, d) == DerivedReferencers(cfg, visible, d) {
      }
    }
    if NoEmptyEntries(displayed) && forall d :: Referencers(displayed, d) == DerivedReferencers(cfg, visible, d) {
      forall d, q | d in displayed && q in displayed[d]
        ensures References(cfg, visible, q, d)
      {
        assert q in Referencers(displayed, d);
      }
      forall d, q | References(cfg, visible, q, d)
        ensures d in displayed && q in displayed[d]
      {
        assert q in Referencers(displayed, d);
      }
    }
  }

  /** The referencer set as it is defined: by the players' observation sets alone. */
  ghost function DerivedReferencers(cfg: Config, visible: map<PlayerId, set<Coord>>, d: Coord): set<PlayerId> {
    set q | q in visible && exists s :: s in visible[q] && Mirrors(cfg, s) && DisplayOf(cfg, s) == d
  }

  /** Adding `s` to a player's set adds exactly that player at the display cell of `s`. */
  lemma ReferencesAfterAdd(cfg: Config, visible: map<PlayerId, set<Coord>>, p: PlayerId, V: set<Coord>,
                           s: Coord, q: PlayerId, d: Coord)
    ensures References(cfg, visible[p := V + {s}], q, d) <==>
      References(cfg, visible[p := V], q, d) || (q == p && d == DisplayOf(cfg, s) && Mirrors(cfg, s))
  {
    SourceOfDisplayOf(cfg, s);
    DisplayOfSourceOf(cfg, d);
  }

  /** Removing `s` from a player's set removes exactly that player at the display cell of `s`. */
  lemma ReferencesAfterRemove(cfg: Config, visible: map<PlayerId, set<Coord>>, p: PlayerId, V: set<Coord>,
                              s: Coord, q: PlayerId, d: Coord)
    ensures References(cfg, visible[p := V - {s}], q, d) <==>
      References(cfg, visible[p := V], q, d) && !(q == p && d == DisplayOf(cfg, s))
  {
    SourceOfDisplayOf(cfg, s);
    DisplayOfSourceOf(cfg, d);
  }

  /** Reference of `s` keeps the invariant once `s` joins the player's working observation set. */
  lemma CopyPreservesConsistent(cfg: Config, st: State, s: Coord, p: PlayerId, V: set<Coord>)
    requires Consistent(cfg, st.visible[p := V], st.displayed)
    ensures Consistent(cfg, st.visible[p := V + {s}], CopyBlockToDisplay(cfg, st, s, p).displayed)
  {
    var r := CopyBlockToDisplay(cfg, st, s, p);
    var before := st.visible[p := V];
    var after := st.visible[p := V + {s}];
    forall d, q | d in r.displayed && q in r.displayed[d]
      ensures References(cfg, after, q, d)
    {
      ReferencesAfterAdd(cfg, st.visible, p, V, s, q, d);
      assert q in Referencers(r.displayed, d);
      if !(q == p && d == DisplayOf(cfg, s) && Mirrors(cfg, s)) {
        assert q in Referencers(st.displayed, d);
      }
    }
    forall d, q | References(cfg, after, q, d)
      ensures d in r.displayed && q in r.displayed[d]
    {
      ReferencesAfterAdd(cfg, st.visible, p, V, s, q, d);
      if !(q == p && d == DisplayOf(cfg, s) && Mirrors(cfg, s)) {
        assert References(cfg, before, q, d);
        assert q in Referencers(st.displayed, d);
      }
      assert q in Referencers(r.displayed, d);
    }
  }

  /** Dereference of `s` keeps the invariant once `s` leaves the player's working observation set. */
  lemma RemovePreservesConsistent(cfg: Config, st: State, s: Coord, p: PlayerId, V: set<Coord>)
    requires Consistent(cfg, st.visible[p := V], st.displayed)
    ensures Consistent(cfg, st.visible[p := V - {s}], RemoveBlockFromDisplay(cfg, st, s, p).displayed)
  {
    var r := RemoveBlockFromDisplay(cfg, st, s, p);
    var before := st.visible[p := V];
    var after := st.visible[p := V - {s}];
    forall d, q | d in r.displayed && q in r.displayed[d]
      ensures References(cfg, after, q, d)
    {
      ReferencesAfterRemove(cfg, st.visible, p, V, s, q, d);
      assert q in Referencers(r.displayed, d);
      assert q in Referencers(st.displayed, d);
    }
    forall d, q | References(cfg, after, q, d)
      ensures d in r.displayed && q in r.displayed[d]
    {
      ReferencesAfterRemove(cfg, st.visible, p, V, s, q, d);
      assert References(cfg, before, q, d);
      assert q in Referencers(st.displayed, d);
      assert q in Referencers(r.displayed, d);
    }
  }

  /** The add loop keeps the invariant, whatever order it visits the coordinates in. */
  lemma {:induction false} CopyAllPreservesConsistent(cfg: Config, st: State, xs: seq<Coord>, p: PlayerId, V: set<Coord>)
    requires Consistent(cfg, st.visible[p := V], st.displayed)
    ensures Consistent(cfg, st.visible[p := V + Elems(xs)], CopyAll(cfg, st, xs, p).displayed)
    decreases |xs|
  {
    if xs == [] {
      assert Elems(xs) == {};
      assert V + Elems(xs) == V;
    } else {
      var st1 := CopyBlockToDisplay(cfg, st, xs[0], p);
      CopyPreservesConsistent(cfg, st, xs[0], p, V);
      CopyAllPreservesConsistent(cfg, st1, xs[1..], p, V + {xs[0]});
      ElemsCons(xs);
      assert V + {xs[0]} + Elems(xs[1..]) == V + Elems(xs);
    }
  }

  /** The remove loop keeps the invariant, whatever order it visits the coordinates in. */
  lemma {:induction false} RemoveAllPreservesConsistent(cfg: Config, st: State, xs: seq<Coord>, p: PlayerId, V: set<Coord>)
    requires Consistent(cfg, st.visible[p := V], st.displayed)
    ensures Consistent(cfg, st.visible[p := V - Elems(xs)], RemoveAll(cfg, st, xs, p).displayed)
    decreases |xs|
  {
    if xs == [] {
      assert Elems(xs) == {};
      assert V - Elems(xs) == V;
    } else {
      var st1 := RemoveBlockFromDisplay(cfg, st, xs[0], p);
      RemovePreservesConsistent(cfg, st, xs[0], p, V);
      RemoveAllPreservesConsistent(cfg, st1, xs[1..], p, V - {xs[0]});
      ElemsCons(xs);
      assert V - {xs[0]} - Elems(xs[1..]) == V - Elems(xs);
    }
  }

  /** A player with no entry and a player with an empty entry reference the same cells. */
  lemma EmptyEntryIrrelevant(cfg: Config, visible: map<PlayerId, set<Coord>>, displayed: map<Coord, set<PlayerId>>, p: PlayerId)
    ensures Consistent(cfg, visible[p := {}], displayed) <==> Consistent(cfg, visible - {p}, displayed)
  {
    var a, b := visible[p := {}], visible - {p};
    forall d, q
      ensures References(cfg, a, q, d) <==> References(cfg, b, q, d)
    {
    }
    if Consistent(cfg, a, displayed) {
      forall d, q | d in displayed && q in displayed[d]
        ensures References(cfg, b, q, d)
      {
        assert References(cfg, a, q, d);
      }
      forall d, q | References(cfg, b, q, d)
        ensures d in displayed && q in displayed[d]
      {
        assert References(cfg, a, q, d);
      }
    }
    if Consistent(cfg, b, displayed) {
      forall d, q | d in displayed && q in displayed[d]
        ensures References(cfg, a, q, d)
      {
        assert References(cfg, b, q, d);
      }
      forall d, q | References(cfg, a, q, d)
        ensures d in displayed && q in displayed[d]
      {
        assert References(cfg, b, q, d);
      }
    }
  }

  /** Making a player's entry explicit, with the empty set when absent, keeps the invariant. */
  lemma ObservedEntryConsistent(cfg: Config, visible: map<PlayerId, set<Coord>>, displayed: map<Coord, set<PlayerId>>, p: PlayerId)
    requires Consistent(cfg, visible, displayed)
    ensures Consistent(cfg, visible[p := Observed(visible, p)], displayed)
  {
    if p in visible {
      assert visible[p := Observed(visible, p)] == visible;
    } else {
      assert visible - {p} == visible;
      EmptyEntryIrrelevant(cfg, visible, displayed, p);
    }
  }
}

=== FILE: scenario.dfy ===
/**
  Concrete runs of the engine under the default configuration: one stone block
  observed by two players, the edge of the disc, a height outside the display
  band, and a mirrored block read back by a later scan.
 */
module Scenario {
  import opened Configuration
  import opened Worlds
  import opened Visibility
  import opened Mirror

  const Overworld: WorldId := WorldId(0)
  const Stone: Block := NonAir(1, 0)
  const Alice: PlayerId := PlayerId(1)
  const Bob: PlayerId := PlayerId(2)
  const Source: Coord := Coord(Overworld, 3, 70, 4)
  const Display: Coord := Coord(Overworld, 3, 170, 4)
  const Origin: Pos := Pos(InWorld(Overworld), 0, 64, 0)

  /** Stone at `Source`, the edge blocks used below, and chunk (0, 0) loaded. */
  const StartWorld: World := World(
    map[Source := Stone, Coord(Overworld, 10, 70, 0) := Stone, Coord(Overworld, 8, 70, 7) := Stone],
    {Chunk(Overworld, 0, 0)})

  const Start: State := State(map[], map[], map[], StartWorld)

  /** The player at the origin observes the stone five blocks away, and it maps 100 blocks up. */
  lemma StoneIsObservedAndMapped()
    ensures IsVisible(Defaults, StartWorld, Origin, Source)
    ensures Mirrors(Defaults, Source) && DisplayOf(Defaults, Source) == Display
  {
  }

  /** Distance exactly equal to the radius is inside; a corner of the square outside the disc is not. */
  lemma DiscBoundary()
    ensures IsVisible(Defaults, StartWorld, Origin, Coord(Overworld, 10, 70, 0))
    ensures !IsVisible(Defaults, StartWorld, Origin, Coord(Overworld, 11, 70, 0))
    ensures !IsVisible(Defaults, StartWorld, Origin, Coord(Overworld, 8, 70, 7))
  {
  }

  /**
    The first reference copies the stone, the second writes nothing, the first
    dereference keeps the copy for the remaining player, the last one clears it.
   */
  lemma TwoPlayersShareOneCell()
    ensures var s1 := CopyBlockToDisplay(Defaults, Start, Source, Alice);
            var s2 := CopyBlockToDisplay(Defaults, s1, Source, Bob);
            var s3 := RemoveBlockFromDisplay(Defaults, s2, Source, Alice);
            var s4 := RemoveBlockFromDisplay(Defaults, s3, Source, Bob);
            && Referencers(s1.displayed, Display) == {Alice} && BlockAt(s1.world, Display) == Stone
            && Referencers(s2.displayed, Display) == {Alice, Bob} && s2.world == s1.world
            && Referencers(s3.displayed, Display) == {Bob} && BlockAt(s3.world, Display) == Stone
            && Display !in s4.displayed && BlockAt(s4.world, Display) == Air
  {
    StoneIsObservedAndMapped();
    var s1 := CopyBlockToDisplay(Defaults, Start, Source, Alice);
    assert |Referencers(s1.displayed, Display)| == 1;
    var s2 := CopyBlockToDisplay(Defaults, s1, Source, Bob);
    SecondReferencerDoesNotWrite(Defaults, s1, Source, Bob, Alice);
    var s3 := RemoveBlockFromDisplay(Defaults, s2, Source, Alice);
    assert {Alice, Bob} - {Alice} == {Bob};
    var s4 := RemoveBlockFromDisplay(Defaults, s3, Source, Bob);
  }

  /** Height 320 would be displayed at 420, above the display band, so it is never mirrored. */
  lemma OutOfBandIsNeverMirrored(p: PlayerId)
    ensures var top := Coord(Overworld, 3, 320, 4);
            && !Mirrors(Defaults, top)
            && CopyBlockToDisplay(Defaults, Start, top, p) == Start
  {
  }

  /**
    The default bands overlap: a mirrored block at height 170 lies in the source
    band, so a later scan observes it and would mirror it again at height 270.
   */
  lemma MirroredBlockIsObservedAgain()
    ensures var s1 := CopyBlockToDisplay(Defaults, Start, Source, Alice);
            && IsVisible(Defaults, s1.world, Origin, Display)
            && Mirrors(Defaults, Display)
            && DisplayOf(Defaults, Display) == Coord(Overworld, 3, 270, 4)
  {
    TwoPlayersShareOneCell();
  }
}

=== FILE: visibility.dfy ===
/**
  Which source blocks a player observes (BlockManager.calculateVisibleBlocks) and
  when a player has moved far enough to recompute them (the movement gate).
 */
module Visibility {
  import opened Int32
  import opened Configuration
  import opened Worlds

  /** Squared distance between two positions of the same world. */
  function SquaredDistance(a: Pos, b: Pos): int {
    (a.x - b.x) * (a.x - b.x) + (a.y - b.y) * (a.y - b.y) + (a.z - b.z) * (a.z - b.z)
  }

  /** The movement gate: a move of squared distance below one is ignored. */
  predicate MovedLessThanOneBlock(last: Pos, current: Pos) {
    last.world == current.world && SquaredDistance(last, current) < 1
  }

  /** On block positions the gate holds exactly when the player has not changed block. */
  lemma MovedLessThanOneBlockIffSame(last: Pos, current: Pos)
    ensures MovedLessThanOneBlock(last, current) <==> last == current
  {
    var dx, dy, dz := last.x - current.x, last.y - current.y, last.z - current.z;
    if last.world == current.world && last != current {
      assert dx != 0 || dy != 0 || dz != 0;
      assert dx * dx >= 0 && dy * dy >= 0 && dz * dz >= 0;
      if dx != 0 {
        assert dx * dx >= 1 by { SquareOfNonZero(dx); }
      } else if dy != 0 {
        assert dy * dy >= 1 by { SquareOfNonZero(dy); }
      } else {
        assert dz * dz >= 1 by { SquareOfNonZero(dz); }
      }
    }
  }

  lemma SquareOfNonZero(d: int)
    requires d != 0
    ensures d * d >= 1
  {
    if d < 0 {
      assert d * d == (-d) * (-d);
    }
  }

  /** The horizontal disc: `sqrt(dx^2 + dz^2) > range` excludes, so equality is inside. */
  predicate InDisc(range: int, dx: int, dz: int) {
    dx * dx + dz * dz <= range * range
  }

  /** The square the scan walks over. */
  predicate InScanBox(range: int, dx: int, dz: int) {
    -range <= dx <= range && -range <= dz <= range
  }

  /** A coordinate the player at `pos` observes. */
  predicate IsVisible(cfg: Config, w: World, pos: Pos, c: Coord) {
    && pos.world == InWorld(c.world)
    && InScanBox(cfg.visibilityRange, c.x - pos.x, c.z - pos.z)
    && InDisc(cfg.visibilityRange, c.x - pos.x, c.z - pos.z)
    && InSourceRange(cfg, c.y)
    && BlockAt(w, c) != Air
    && IsChunkLoaded(w, c)
  }

  /** For a non-negative range the disc lies inside the scanned square. */
  lemma DiscWithinBox(range: int, dx: int, dz: int)
    requires range >= 0
    requires InDisc(range, dx, dz)
    ensures InScanBox(range, dx, dz)
  {
    assert dz * dz >= 0 && dx * dx >= 0;
    if dx > range || -dx > range {
      var a := if dx > 0 then dx else -dx;
      assert a * a == dx * dx;
      SquareMonotone(range, a);
    }
    if dz > range || -dz > range {
      var a := if dz > 0 then dz else -dz;
      assert a * a == dz * dz;
      SquareMonotone(range, a);
    }
  }

  lemma SquareMonotone(a: int, b: int)
    requires 0 <= a < b
    ensures a * a < b * b
  {
    assert a * a <= a * b;
    assert a * b < b * b;
  }

  /**
    Walks the square around the player column by column and each column from the
    bottom of the source band to its top, keeping the non-air blocks of loaded
    chunks that lie inside the disc.
   */
  method CalculateVisibleBlocks(cfg: Config, w: World, pos: Pos) returns (visible: set<Coord>)
    ensures forall c :: c in visible <==> IsVisible(cfg, w, pos, c)
    ensures pos.world.NoWorld? ==> visible == {}
  {
    visible := {};
    if pos.world.NoWorld? {
      return;
    }
    var world := pos.world.id;
    var range := cfg.visibilityRange as int;
    var x := pos.x - range;
    while x <= pos.x + range
      invariant pos.x - range <= x
      invariant forall c :: c in visible <==> IsVisible(cfg, w, pos, c) && c.x < x
    {
      var z := pos.z - range;
      while z <= pos.z + range
        invariant pos.z - range <= z
        invariant forall c :: c in visible <==>
          IsVisible(cfg, w, pos, c) && (c.x < x || (c.x == x && c.z < z))
      {
        if InDisc(range, x - pos.x, z - pos.z) {
          var y: int := cfg.sourceYMin;
          while y <= cfg.sourceYMax
            invariant cfg.sourceYMin <= y
            invariant forall c :: c in visible <==>
              IsVisible(cfg, w, pos, c) && (c.x < x || (c.x == x && c.z < z) || (c.x == x && c.z == z && c.y < y))
          {
            var c := Coord(world, x, y as int32, z);
            if BlockAt(w, c) != Air && IsChunkLoaded(w, c) {
              visible := visible + {c};
            }
            y := y + 1;
          }
        }
        z := z + 1;
      }
      x := x + 1;
    }
  }

  /**
    A counter of the scan as written: `x++`, `z++` and `y++` on a Java `int`,
    which wrap from the largest `int` to the smallest.
   */
  function IncrementAsWritten(v: int32): (r: int32)
    ensures v < MAX ==> r == v + 1
    ensures v == MAX ==> r == MIN
  {
    Wrap(v + 1)
  }

  /**
    Validation accepts a source band whose top is the largest `int`; for it the
    guard `y <= sourceYMax` holds of every counter value, the next one included,
    so the scan as written never leaves its height loop.
   */
  lemma ScanAtIntMaxNeverExits(cfg: Config)
    requires cfg.sourceYMax == MAX && cfg.sourceYMin < MAX
    ensures Validate(cfg).sourceYMax == MAX
    ensures forall y: int32 :: y <= Validate(cfg).sourceYMax && IncrementAsWritten(y) <= Validate(cfg).sourceYMax
    ensures IncrementAsWritten(MAX) == MIN
  {
  }

  /** The first column of the scan as written: `center - range` on Java `int`s. */
  function ScanStartAsWritten(center: int32, range: int32): (r: int32)
    ensures MIN <= center - range <= MAX ==> r == center - range
  {
    Wrap(center - range)
  }

  /**
    The last column of the scan as written: `center + range` on Java `int`s, which
    wraps to a large negative value once the sum passes the largest `int`.
   */
  function ScanEndAsWritten(center: int32, range: int32): (r: int32)
    ensures MIN <= center + range <= MAX ==> r == center + range
    ensures center + range > MAX ==> r == center + range - MODULUS
  {
    Wrap(center + range)
  }

  /** The defaults with the largest radius validation accepts. */
  const WideRadius: Config := Defaults.(visibilityRange := MAX)

  /** A stone under a player standing at block (1000, 64, 0), its chunk loaded. */
  const WideWorld: World :=
    World(map[Coord(WorldId(0), 1000, 70, 0) := NonAir(1, 0)], {Chunk(WorldId(0), 62, 0)})

  /**
    With the radius at the largest `int` the column loop as written goes wrong
    both ways. At x = 1000 its bound wraps below its start, so nothing is
    scanned, although the block under the player is observed by the intended
    scan. At x = 0 its bound is the largest `int`, so the guard `x <= bound`
    holds of every counter value and the loop never exits. The row loop over z
    shares both defects.
   */
  lemma WideRadiusScanAsWritten()
    ensures Validate(WideRadius) == WideRadius
    ensures ScanEndAsWritten(1000, MAX) < ScanStartAsWritten(1000, MAX)
    ensures IsVisible(WideRadius, WideWorld, Pos(InWorld(WorldId(0)), 1000, 64, 0), Coord(WorldId(0), 1000, 70, 0))
    ensures ScanEndAsWritten(0, MAX) == MAX
    ensures forall x: int32 :: x <= ScanEndAsWritten(0, MAX) && IncrementAsWritten(x) <= ScanEndAsWritten(0, MAX)
  {
  }
}

=== FILE: worlds.dfy ===
/**
  The block world the engine reads and writes, reduced to what the engine needs:
  a block at every coordinate (absent means air), the set of loaded chunks, and
  the position of a player.
 */
module Worlds {
  import opened Int32

  /** The identity of a loaded world. */
  datatype WorldId = WorldId(uid: int)

  /** A block coordinate. Its height takes part in 32-bit arithmetic, so it is a Java `int`. */
  datatype Coord = Coord(world: WorldId, x: int, y: int32, z: int)

  /** A block: air, or any other material (water, lava and cave air included) with its block data. */
  datatype Block = Air | NonAir(material: nat, data: nat)

  /** A 16 x 16 column of blocks, named by its chunk coordinates. */
  datatype Chunk = Chunk(world: WorldId, cx: int, cz: int)

  /** Block contents (a coordinate missing from `blocks` holds air) and the loaded chunks. */
  datatype World = World(blocks: map<Coord, Block>, loaded: set<Chunk>)

  /** The world a position belongs to; a player's location may carry no world. */
  datatype WorldRef = NoWorld | InWorld(id: WorldId)

  /** A player's position, in block coordinates. */
  datatype Pos = Pos(world: WorldRef, x: int, y: int, z: int)

  function BlockAt(w: World, c: Coord): Block {
    if c in w.blocks then w.blocks[c] else Air
  }

  /** Overwrites one block and nothing else. */
  function SetBlock(w: World, c: Coord, b: Block): (r: World)
    ensures BlockAt(r, c) == b
    ensures forall e :: e != c ==> BlockAt(r, e) == BlockAt(w, e)
    ensures r.loaded == w.loaded
  {
    w.(blocks := w.blocks[c := b])
  }

  /**
    The chunk holding a coordinate, `(x >> 4, z >> 4)`. An arithmetic shift by four
    rounds toward negative infinity, and so does Dafny's `/` by a positive divisor.
   */
  function ChunkOf(c: Coord): (r: Chunk)
    ensures r.world == c.world
    ensures 16 * r.cx <= c.x < 16 * r.cx + 16
    ensures 16 * r.cz <= c.z < 16 * r.cz + 16
  {
    Chunk(c.world, c.x / 16, c.z / 16)
  }

  predicate IsChunkLoaded(w: World, c: Coord) {
    ChunkOf(c) in w.loaded
  }
}

=== FILE: wrappers.dfy ===
/** Optional values: `None` stands for a key missing from the stored configuration. */
module Wrappers {

  datatype Option<+T> = None | Some(value: T) {

    /** The value held, or `default` when there is none. */
    function GetOr(default: T): (r: T)
      ensures Some? ==> r == value
      ensures None? ==> r == default
    {
      match this
      case Some(v) => v
      case None => default
    }
  }
}
